=== FILE: README.md ===
# Blue Goose audio player: a Dafny model of its playback controller

The Blue Goose app plays a fixed playlist of bird-call recordings through a custom
audio player component (`AudioPlayer` in `src/app/components/audio-player.tsx`).
Without its markup and the `<audio>` element, the component is a small state machine
over one record: the selected track index, `playing`, the stored volume, `muted`,
`loading` and the repeat mode (none, all, one). This project models that state machine
and proves what each handler does to it.

How the model is built:

- **Handlers are pure functions of the state captured at render time.** Each handler
  returns an `Effect`: the React state updates it queues, in order, and the commands it
  sends to the playback engine (`Play`, `Pause`, `SetEngineVolume`, `Rewind`, and
  `LoadAndPlayLater` for the 100 ms load-then-play timer). `Player.Commit` applies the
  queued updates in order, so the last write to a field wins, as with React's batching.
  For example, the end-of-track handler queues `playing := false` and then runs
  next-track. Next-track re-queues `playing := true` only if the captured state was
  playing.
- **The repeat button uses a functional updater.** It is modelled as the `CycleRepeat`
  update, which reads the latest queued value rather than the captured one.
- **`audioRef.current` becomes `attached`.** This is the controller's `Env.attached`.
  Play/pause, mute and the volume slider do nothing without a mounted element. At the
  end of a track under repeat-one without an element, only `playing := false` happens.
- **Volume is in integer hundredths (0..100).** The slider is a range input over [0, 1]
  with step 0.01.
- **The engine volume is followed through the command log.** `Player.EngineVolumeAfter`
  tracks it. The invariant `Synced` says it always equals 0 while muted and the stored
  volume otherwise.
- **Loading gates only some controls.** The previous, play/pause and next buttons are
  disabled while loading. The keyboard shortcuts and the playlist entries are not.
- **`formatTime` follows JavaScript's numbers.** Its input is a JavaScript number: NaN,
  plus or minus Infinity, or a finite value. The finite value is an exact real, and `%`
  truncates toward zero as JavaScript's does.

Files: `player.dfy` (state, updates, commit, engine volume), `transport.dfy` (the
handlers), `keyboard.dfy` (shortcut dispatch), `controller.dfy` (event routing, control
gating, invariants over event sequences), `time_format.dfy` (the clock label).

A behaviour worth knowing, modelled as written: under repeat-all, the end of the
last track selects the first track but leaves `playing == false` and issues no play
command (`Transport.Ended`, `Transport.EndedLastStops`). So the playlist does not loop
by itself. In contrast, the end of an interior track keeps playing.

Behaviours of the code worth knowing:

- **Seeking is not clamped.** `handleProgressClick` (`audio-player.tsx:161-166`) writes
  the computed position straight to the element and to `currentTime`, without bounding
  it to the track.
- **Repeat-one rewinds only the element.** The end-of-track handler sets the element's
  `currentTime` to 0 (`audio-player.tsx:189`) but not React's `currentTime`. The model
  records this as the engine command `Rewind`.
- **Playlist entries stay enabled while loading.** The playlist buttons
  (`audio-player.tsx:428-436`) carry no `disabled` attribute.
- **Play/pause returns early only without an element.** `togglePlayPause` returns early
  only when `audioRef.current` is null (`audio-player.tsx:52`).
- **Every `<input>` target suppresses the shortcuts.** The keyboard guard is
  `e.target instanceof HTMLInputElement` (`audio-player.tsx:215`). It covers every
  `<input>`, including the player's own volume slider, not only text fields.

## Model

| member | source | states |
|---|---|---|
| Player.NextRepeatMode | src/app/components/audio-player.tsx:143-154 | the repeat updater always moves to a different mode: none to all, all to one, one to none |
| Player.RepeatCycleHasPeriodThree | src/app/components/audio-player.tsx:142-155 | the repeat cycle none, all, one returns to its start after exactly three steps and not after two |
| Player.ApplyUpdate | src/app/components/audio-player.tsx:59-199 | one queued state setter writes its own field and leaves the other five untouched |
| Player.Commit | src/app/components/audio-player.tsx:182-209 | React's in-order commit of a handler's queued updates leaves every field that no queued update writes at its old value |
| Player.CommitAppend | src/app/components/audio-player.tsx:182-209 | applying two queues of state updates one after the other equals applying their concatenation |
| Player.LastPlayingWriteWins | src/app/components/audio-player.tsx:183-197 | a later `setIsPlaying` overrides every earlier one within a handler, whatever came before |
| Player.EngineVolumeAppend | src/app/components/audio-player.tsx:103-139 | the engine volume after two command logs is the volume after their concatenation |
| Transport.TogglePlayPause | src/app/components/audio-player.tsx:51-60 | with an audio element, `playing` is negated, nothing else changes, and exactly one pause (if playing) or play (if paused) is sent; without one nothing happens |
| Transport.TogglePlayPauseTwice | src/app/components/audio-player.tsx:51-60 | two presses restore the whole state and send one play and one pause |
| Transport.Advance | src/app/components/audio-player.tsx:63-100 | a track change moves only the index, keeps `playing`, and schedules load-then-play exactly when playing |
| Transport.NextTrack | src/app/components/audio-player.tsx:63-80 | the index becomes the next one, wrapping from the last to 0, stays in range, and nothing else changes; load-then-play only if playing |
| Transport.PreviousTrack | src/app/components/audio-player.tsx:83-100 | the index becomes the previous one, wrapping from 0 to the last, stays in range, and nothing else changes; load-then-play only if playing |
| Transport.NextThenPrevious | src/app/components/audio-player.tsx:63-100 | next then previous restores the whole state for every playlist length, including one |
| Transport.PreviousThenNext | src/app/components/audio-player.tsx:63-100 | previous then next restores the whole state |
| Transport.NextTimes | src/app/components/audio-player.tsx:63-80 | any number of next presses keeps the index inside the playlist |
| Transport.NextTimesRotates | src/app/components/audio-player.tsx:63-80 | k next presses move the index k places forward modulo the playlist length and change nothing else |
| Transport.VolumeChange | src/app/components/audio-player.tsx:103-109 | the stored volume and the engine volume become v, muted holds exactly when v is 0, nothing else changes; without an audio element nothing happens |
| Transport.SelectAndPlay | src/app/components/audio-player.tsx:112-126 | the chosen index is selected, `playing` becomes true, load-then-play is scheduled, and nothing else changes |
| Transport.ToggleMute | src/app/components/audio-player.tsx:129-139 | `muted` flips, the stored volume never changes, and the engine is set to 0 when muting and to the stored volume when unmuting |
| Transport.ToggleMuteTwice | src/app/components/audio-player.tsx:129-139 | two presses of mute, from either starting point, restore the whole state and leave the engine at the volume it played at before |
| Transport.UnmuteAfterSliderAtZero | src/app/components/audio-player.tsx:103-139 | dragging the slider to 0 mutes, and a later unmute clears `muted` but sets the engine to 0, the stored volume |
| Transport.ToggleRepeat | src/app/components/audio-player.tsx:142-155 | the repeat mode steps along none, all, one and nothing else changes |
| Transport.ToggleRepeatThrice | src/app/components/audio-player.tsx:142-155 | three presses of the repeat button are the identity on the whole state |
| Transport.LoadStart | src/app/components/audio-player.tsx:170 | a load start sets `loading` and changes nothing else |
| Transport.LoadedData | src/app/components/audio-player.tsx:171 | loaded data clears `loading` and changes nothing else |
| Transport.PlayRejected | src/app/components/audio-player.tsx:73-76 | a rejected deferred play sets `playing` to false and changes nothing else |
| Transport.AdvanceOnto | src/app/components/audio-player.tsx:63-80 | next-track's queued writes applied on top of earlier writes set the index and re-assert `playing` only if the captured state was playing |
| Transport.Ended | src/app/components/audio-player.tsx:182-210 | end of track: repeat-one keeps the index, rewinds and plays, and ends playing iff an element is mounted; otherwise an interior track advances by one keeping the pre-event `playing`; the last track goes to 0 and stops under repeat-all and stays and stops under no-repeat; only index and playing change |
| Transport.AfterStop | src/app/components/audio-player.tsx:182-183 | a handler's writes queued after the leading `playing := false` act on the stopped state |
| Transport.AfterStopThenNext | src/app/components/audio-player.tsx:194-207 | at an interior track the end-of-track branch selects the next track and keeps the pre-event `playing` |
| Transport.EndedInteriorIsNext | src/app/components/audio-player.tsx:194-207 | outside repeat-one, ending an interior track yields the same state and commands as pressing next |
| Transport.EndedLastStops | src/app/components/audio-player.tsx:194-209 | outside repeat-one, ending the last track always stops playback and issues no command |
| Keyboard.HandleKey | src/app/components/audio-player.tsx:213-239 | Space, shift+right, shift+left and the R key run play/pause, next, previous and repeat, and no key fires when the event targets an `<input>`; the default action is prevented exactly when a shortcut runs |
| Keyboard.UnboundKeysPassThrough | src/app/components/audio-player.tsx:214-238 | keys aimed at an `<input>` and unbound keys run nothing and keep their default |
| Keyboard.ShiftOnlyMattersForArrows | src/app/components/audio-player.tsx:217-238 | holding shift changes the outcome only for the arrow keys |
| Controller.CurrentTrack | src/app/components/audio-player.tsx:40 | the current track is a member of the playlist |
| Controller.Clickable | src/app/components/audio-player.tsx:315-436 | previous, play/pause and next are enabled exactly when not loading (`disabled={isLoading}` at lines 317, 328, 349); mute and repeat are always enabled; a playlist entry is clickable exactly when the playlist is shown with more than one track (line 423) and it names a track, whether or not a source is loading |
| Controller.RunShortcut | src/app/components/audio-player.tsx:217-237 | space flips `playing` when an element is mounted, shift+right and shift+left move to the next and previous track with wrap-around, R steps the repeat mode; nothing else changes and no shortcut sets the engine volume |
| Controller.ClickControl | src/app/components/audio-player.tsx:315-430 | a click on a control that is not enabled does nothing; an enabled previous, play/pause, next, mute or repeat button commits its own handler's state change (`onClick` at lines 316, 327, 348, 362, 393); a shown playlist entry becomes current and plays (line 430); only the mute button sets the engine volume |
| Controller.Handle | src/app/components/audio-player.tsx:213-430 | every event keeps the selection in range, only the slider writes the stored volume, only the slider and the mute button set the engine volume, and a key with no shortcut does nothing |
| Controller.ShortcutsRunTheirHandlers | src/app/components/audio-player.tsx:228-237 | shift+left commits exactly previous-track's updates and commands, and R with or without shift commits exactly toggle-repeat's |
| Controller.Step | src/app/components/audio-player.tsx:274-430 | every event keeps the selected index inside the playlist, and only the volume slider changes the stored volume |
| Controller.StepKeepsEngineSynced | src/app/components/audio-player.tsx:103-139 | every event keeps the engine volume equal to 0 while muted and to the stored volume otherwise |
| Controller.Run | src/app/components/audio-player.tsx:28-40 | any sequence of events keeps the selected index inside the playlist |
| Controller.RunKeepsEngineSynced | src/app/components/audio-player.tsx:103-139 | any sequence of events keeps the engine volume in step with the muted flag and the stored volume |
| Controller.InitialIsConsistent | src/app/components/audio-player.tsx:28-35 | the mounted player selects the first track and agrees with an engine at full volume |
| Controller.TransportButtonsDisabledWhileLoading | src/app/components/audio-player.tsx:315-356 | while loading, clicks on previous, play/pause and next change nothing and send nothing |
| Controller.SpaceWorksWhileLoading | src/app/components/audio-player.tsx:213-221 | the space bar still flips `playing` and drives the engine while loading |
| Controller.OtherControlsWorkWhileLoading | src/app/components/audio-player.tsx:361-436 | while loading, mute and repeat still run their handlers and a shown playlist entry still selects and plays its track, since those buttons carry no `disabled` |
| Controller.PlaylistEntrySelects | src/app/components/audio-player.tsx:423-430 | a shown playlist entry becomes the current track and starts playing |
| Controller.NextButtonMatchesShortcut | src/app/components/audio-player.tsx:347-349 | an enabled next button and shift+right have the same effect |
| TimeFormat.Remainder60 | src/app/components/audio-player.tsx:46 | `t % 60` is finite exactly for a finite t, differs from t by a whole multiple of 60, and lies in [0, 60) for t >= 0 and in (-60, 0] for t < 0, which fixes it as the truncating remainder |
| TimeFormat.MathFloor | src/app/components/audio-player.tsx:45-46 | `Math.floor` of a finite value is the greatest integer not above it; NaN and the infinities pass through with their sign |
| TimeFormat.NumberToString | src/app/components/audio-player.tsx:47 | a whole number's string is its canonical decimal numeral: digits with no leading zero that read back as its magnitude, preceded by a minus sign exactly when it is negative; NaN prints "NaN" |
| TimeFormat.PadStart2 | src/app/components/audio-player.tsx:47 | padding yields at least two characters, keeps the string as its suffix, and fills only with zeros |
| TimeFormat.FormatTime | src/app/components/audio-player.tsx:43-48 | NaN renders as "0:00" and every other input yields a label with a colon |
| TimeFormat.NatToStringRoundTrip | src/app/components/audio-player.tsx:47 | the decimal numeral of n is all digits, has no leading zero, and reads back as n |
| TimeFormat.SplitMinutes | src/app/components/audio-player.tsx:45-46 | for t >= 0 the minutes and seconds fields are floor(t) divided by 60 and floor(t) modulo 60 |
| TimeFormat.TwoDigitSeconds | src/app/components/audio-player.tsx:46-47 | a seconds value below 60 is rendered as exactly two digits reading back as that value |
| TimeFormat.NonNegativeLabel | src/app/components/audio-player.tsx:43-48 | the label of t >= 0 is the minutes numeral, a colon and the padded seconds numeral of floor(t) |
| TimeFormat.ClockLabel | src/app/components/audio-player.tsx:47 | each field of an M:SS label reads back to its number, and the seconds field is two digits |
| TimeFormat.FormatTimeReadsBack | src/app/components/audio-player.tsx:43-48 | for t >= 0 the label is M:SS with SS exactly two digits below 60, M without a leading zero, and M*60+SS == floor(t) |
| TimeFormat.NonFiniteLabels | src/app/components/audio-player.tsx:43-48 | NaN renders "0:00", Infinity renders "Infinity:NaN", minus Infinity renders "-Infinity:NaN" |
| TimeFormat.NegativeTimeLabel | src/app/components/audio-player.tsx:45-47 | a negative time yields a label that starts with a minus sign |
| TimeFormat.MinusFiveSeconds | src/app/components/audio-player.tsx:45-47 | minus five seconds renders as "-1:-5", because the remainder keeps the dividend's sign |

## Left out

- The markup, CSS, icons, aria labels and the repeat-mode captions are presentation only.
- The `<audio>` element itself is left out. Its commands are recorded, not executed.
- The element reloads implicitly whenever the selected index changes, because its `src` follows
  the current track (`audio-player.tsx:276`). This includes a paused next or previous and the
  repeat-all wrap to the first track. That reload is not a recorded command; only the
  `LoadStart` signal it produces is modelled, as an event.
- The 100 ms timer before load-then-play is one `LoadAndPlayLater` command. Whether the
  element is still mounted when the timer fires is not modelled.
- Rejections are caught only on the deferred plays. `PlayRejected` models that catch and
  may arrive at any time in the model. The plain `play()` calls of play/pause and
  repeat-one have no handler in the source, so they have none here.
- Seeking by clicking the progress bar, the progress-bar width, and the time-update and
  metadata handlers are left out. They work on float positions, durations and pixel
  geometry.
- The `autoPlay` effect is left out. It is effectful, and the app passes `autoPlay={false}`.
- The empty-playlist branch is left out. Every index operation requires at least one
  track (`Valid(s, n)` implies `n >= 1`).
- The splash screen and static track list of the page are app glue, not part of the
  controller.
- The mobile packaging configuration is build configuration, not behaviour.
- Stale-signal filtering and session tokens are not modelled. The code has none.
- TimeFormat.FormatTime: finite numbers are exact reals. Float rounding of `t / 60` and
  `t % 60` is not modelled, and neither is the exponent notation JavaScript uses for
  numbers of 1e21 and more.
- Transport.VolumeChange: the level is an integer number of hundredths in [0, 100],
  the values the slider produces. Arbitrary numbers passed to the handler are not modelled.
- The `default` arm of the repeat cycle cannot be reached with a typed repeat mode, so it
  is not modelled.

=== FILE: controller.dfy ===
/**
 The playback controller: routes each user or engine event to its handler, commits the
 queued updates, and collects the engine commands. The transport buttons are disabled
 while a source is loading; the keyboard shortcuts are not.
 */
module Controller {
  import opened Player
  import Transport
  import Keyboard

  /** The clickable controls of the rendered player. */
  datatype Control =
    | PreviousButton
    | PlayPauseButton
    | NextButton
    | MuteButton
    | RepeatButton
    | PlaylistEntry(index: int)

  datatype Event =
    | Click(control: Control)
    | VolumeInput(level: Volume)
    | KeyDown(key: Keyboard.KeyEvent)
    | LoadStart
    | LoadedData
    | Ended
    | PlayRejected

  /** What the controller sees of its surroundings: the playlist, whether the `<audio>`
      element is mounted, and whether the playlist panel is requested. */
  datatype Env = Env(tracks: seq<Track>, attached: bool, showPlaylist: bool)

  datatype Outcome = Outcome(state: State, commands: seq<Command>)

  function TrackCount(env: Env): nat {
    |env.tracks|
  }

  /** The track the player shows and plays. */
  function CurrentTrack(s: State, env: Env): (t: Track)
    requires Valid(s, TrackCount(env))
    ensures t in env.tracks
  {
    env.tracks[s.index]
  }

  /** Whether a control is rendered and enabled: previous, play/pause and next are
      disabled while loading, and the playlist is shown only on request and only when
      it has more than one track. */
  function Clickable(s: State, env: Env, c: Control): (ok: bool)
    ensures !s.loading && !c.PlaylistEntry? ==> ok
    ensures c == MuteButton || c == RepeatButton ==> ok
    ensures s.loading && ok ==> c == MuteButton || c == RepeatButton || c.PlaylistEntry?
    ensures c.PlaylistEntry? ==> (ok <==> env.showPlaylist && |env.tracks| > 1 && 0 <= c.index < |env.tracks|)
  {
    match c
    case PreviousButton => !s.loading
    case PlayPauseButton => !s.loading
    case NextButton => !s.loading
    case MuteButton => true
    case RepeatButton => true
    case PlaylistEntry(i) => env.showPlaylist && |env.tracks| > 1 && 0 <= i < |env.tracks|
  }

  /** No engine command in `cmds` sets the engine's volume. */
  predicate LeavesVolume(cmds: seq<Command>) {
    forall i :: 0 <= i < |cmds| ==> !cmds[i].SetEngineVolume?
  }

  /** A keyboard shortcut runs its transport command; none of them touches the volume. */
  function RunShortcut(s: State, env: Env, k: Keyboard.Shortcut): (r: Effect)
    requires Valid(s, TrackCount(env))
    ensures var t, n := Commit(s, r.updates), TrackCount(env);
      && Valid(t, n)
      && (k == Keyboard.PlayPauseKey ==> t == if env.attached then s.(playing := !s.playing) else s)
      && (k == Keyboard.NextKey ==> t == s.(index := if s.index == n - 1 then 0 else s.index + 1))
      && (k == Keyboard.PreviousKey ==> t == s.(index := if s.index == 0 then n - 1 else s.index - 1))
      && (k == Keyboard.RepeatKey ==> t == s.(repeat := NextRepeatMode(s.repeat)))
    ensures LeavesVolume(r.commands)
  {
    match k
    case PlayPauseKey => Transport.TogglePlayPause(s, env.attached)
    case NextKey => Transport.NextTrack(s, TrackCount(env))
    case PreviousKey => Transport.PreviousTrack(s, TrackCount(env))
    case RepeatKey => Transport.ToggleRepeat(s)
  }

  /** A click on a control: nothing happens unless it is clickable; an enabled button runs
      its own handler, a playlist entry makes its track current and plays it, and only the
      mute button touches the engine volume. */
  function ClickControl(s: State, env: Env, c: Control): (r: Effect)
    requires Valid(s, TrackCount(env))
    ensures Valid(Commit(s, r.updates), TrackCount(env))
    ensures !Clickable(s, env, c) ==> r == NoEffect
    ensures Clickable(s, env, c) ==> var t, n := Commit(s, r.updates), TrackCount(env);
      && (c == PreviousButton ==> t == s.(index := if s.index == 0 then n - 1 else s.index - 1))
      && (c == PlayPauseButton ==> t == if env.attached then s.(playing := !s.playing) else s)
      && (c == NextButton ==> t == s.(index := if s.index == n - 1 then 0 else s.index + 1))
      && (c == MuteButton ==> t == if env.attached then s.(muted := !s.muted) else s)
      && (c == RepeatButton ==> t == s.(repeat := NextRepeatMode(s.repeat)))
      && (c.PlaylistEntry? ==> t == s.(index := c.index, playing := true))
    ensures c != MuteButton ==> LeavesVolume(r.commands)
  {
    if !Clickable(s, env, c) then NoEffect
    else match c
      case PreviousButton => Transport.PreviousTrack(s, TrackCount(env))
      case PlayPauseButton => Transport.TogglePlayPause(s, env.attached)
      case NextButton => Transport.NextTrack(s, TrackCount(env))
      case MuteButton => Transport.ToggleMute(s, env.attached)
      case RepeatButton => Transport.ToggleRepeat(s)
      case PlaylistEntry(i) => Transport.SelectAndPlay(s, i)
  }

  /** Routes an event to its handler. Only the volume slider writes the stored volume; only
      the slider and the mute button set the engine volume; a key the player does not
      bind, or one aimed at an `<input>`, does nothing. */
  function Handle(s: State, env: Env, e: Event): (r: Effect)
    requires Valid(s, TrackCount(env))
    ensures Valid(Commit(s, r.updates), TrackCount(env))
    ensures Commit(s, r.updates).volume != s.volume ==> e.VolumeInput? && Commit(s, r.updates).volume == e.level
    ensures !(e.VolumeInput? || e == Click(MuteButton)) ==> LeavesVolume(r.commands)
    ensures e.KeyDown? && Keyboard.HandleKey(e.key).shortcut.None? ==> r == NoEffect
  {
    match e
    case Click(c) => ClickControl(s, env, c)
    case VolumeInput(v) => Transport.VolumeChange(s, v, env.attached)
    case KeyDown(k) =>
      var key := Keyboard.HandleKey(k);
      if key.shortcut.Some? then RunShortcut(s, env, key.shortcut.value) else NoEffect
    case LoadStart => Transport.LoadStart(s)
    case LoadedData => Transport.LoadedData(s)
    case Ended => Transport.Ended(s, TrackCount(env), env.attached)
    case PlayRejected => Transport.PlayRejected(s)
  }

  /** One event: the state after React commits the handler's updates, and the engine
      commands it issued. The selection stays within the playlist, and the stored
      volume changes only through the volume slider. */
  function Step(s: State, env: Env, e: Event): (r: Outcome)
    requires Valid(s, TrackCount(env))
    ensures Valid(r.state, TrackCount(env))
    ensures r.state.volume != s.volume ==> e.VolumeInput? && r.state.volume == e.level
  {
    var eff := Handle(s, env, e);
    Outcome(Commit(s, eff.updates), eff.commands)
  }

  /** The engine's volume stays in step with the muted flag and the stored volume
      across every event. */
  lemma StepKeepsEngineSynced(s: State, env: Env, e: Event, v: Volume)
    requires Valid(s, TrackCount(env)) && Synced(s, v)
    ensures var r := Step(s, env, e);
      Synced(r.state, EngineVolumeAfter(v, r.commands))
  {
    var r := Step(s, env, e);
    if !(e.VolumeInput? || e == Click(MuteButton)) {
      EngineVolumeUntouched(v, r.commands);
    }
  }

  /** A sequence of events, applied one after the other; the commands are concatenated. */
  function Run(s: State, env: Env, events: seq<Event>): (r: Outcome)
    requires Valid(s, TrackCount(env))
    ensures Valid(r.state, TrackCount(env))
    decreases |events|
  {
    if |events| == 0 then Outcome(s, [])
    else
      var first := Step(s, env, events[0]);
      var rest := Run(first.state, env, events[1..]);
      Outcome(rest.state, first.commands + rest.commands)
  }

  /** From a consistent state, every sequence of events keeps the engine volume equal to
      the volume the player means to play at: silent while muted, the stored volume otherwise. */
  lemma {:induction false} RunKeepsEngineSynced(s: State, env: Env, events: seq<Event>, v: Volume)
    requires Valid(s, TrackCount(env)) && Synced(s, v)
    ensures var r := Run(s, env, events);
      Synced(r.state, EngineVolumeAfter(v, r.commands))
    decreases |events|
  {
    if |events| > 0 {
      var first := Step(s, env, events[0]);
      StepKeepsEngineSynced(s, env, events[0], v);
      var v1 := EngineVolumeAfter(v, first.commands);
      RunKeepsEngineSynced(first.state, env, events[1..], v1);
      EngineVolumeAppend(v, first.commands, Run(first.state, env, events[1..]).commands);
    }
  }

  /** The freshly mounted player is consistent with a fresh engine at full volume. */
  lemma InitialIsConsistent(env: Env)
    requires |env.tracks| >= 1
    ensures Valid(Initial, TrackCount(env)) && Synced(Initial, FullVolume)
    ensures CurrentTrack(Initial, env) == env.tracks[0]
  {
  }

  /** While a source loads, the previous, play/pause and next buttons do nothing. */
  lemma TransportButtonsDisabledWhileLoading(s: State, env: Env, c: Control)
    requires Valid(s, TrackCount(env)) && s.loading
    requires c == PreviousButton || c == PlayPauseButton || c == NextButton
    ensures Step(s, env, Click(c)) == Outcome(s, [])
  {
  }

  /** The space bar is not gated by loading: it still flips `playing` and drives the engine. */
  lemma SpaceWorksWhileLoading(s: State, env: Env, shift: bool)
    requires Valid(s, TrackCount(env)) && s.loading && env.attached
    ensures var r := Step(s, env, KeyDown(Keyboard.KeyEvent("Space", shift, false)));
      r.state == s.(playing := !s.playing) && r.commands == [if s.playing then Pause else Play]
  {
  }

  /** Loading does not gate the mute button, the repeat button or the playlist: while a
      source loads they still mute, cycle the repeat mode, and select and play a track. */
  lemma OtherControlsWorkWhileLoading(s: State, env: Env, i: int)
    requires Valid(s, TrackCount(env)) && s.loading
    ensures var m := Transport.ToggleMute(s, env.attached);
      Step(s, env, Click(MuteButton)) == Outcome(Commit(s, m.updates), m.commands)
    ensures var q := Transport.ToggleRepeat(s);
      Step(s, env, Click(RepeatButton)) == Outcome(Commit(s, q.updates), q.commands)
    ensures env.showPlaylist && |env.tracks| > 1 && 0 <= i < |env.tracks| ==>
      Step(s, env, Click(PlaylistEntry(i))) == Outcome(s.(index := i, playing := true), [LoadAndPlayLater])
  {
  }

  /** Choosing a playlist entry makes it the current track and starts playback. */
  lemma PlaylistEntrySelects(s: State, env: Env, i: int)
    requires Valid(s, TrackCount(env)) && Clickable(s, env, PlaylistEntry(i))
    ensures var r := Step(s, env, Click(PlaylistEntry(i)));
      CurrentTrack(r.state, env) == env.tracks[i] && r.state.playing && r.commands == [LoadAndPlayLater]
  {
  }

  /** The next button and shift+right do the same thing whenever the button is enabled. */
  lemma NextButtonMatchesShortcut(s: State, env: Env)
    requires Valid(s, TrackCount(env)) && !s.loading
    ensures Step(s, env, Click(NextButton)) == Step(s, env, KeyDown(Keyboard.KeyEvent("ArrowRight", true, false)))
  {
  }

  /** Shift+left runs the previous-track command and R, with or without shift, runs the
      repeat command: the committed state and the engine commands are the handler's own. */
  lemma ShortcutsRunTheirHandlers(s: State, env: Env, shift: bool)
    requires Valid(s, TrackCount(env))
    ensures var p := Transport.PreviousTrack(s, TrackCount(env));
      Step(s, env, KeyDown(Keyboard.KeyEvent("ArrowLeft", true, false))) == Outcome(Commit(s, p.updates), p.commands)
    ensures var q := Transport.ToggleRepeat(s);
      Step(s, env, KeyDown(Keyboard.KeyEvent("KeyR", shift, false))) == Outcome(Commit(s, q.updates), q.commands)
  {
  }
}

=== FILE: keyboard.dfy ===
/**
 The player's keyboard shortcuts: which key press runs which transport command, and
 which key presses have their browser default (scrolling, for instance) suppressed.
 */
module Keyboard {
  import opened Player

  /** A `keydown` event: its physical key code, whether shift was held, and whether
      it was aimed at an `<input>` element (a text field, or the player's own volume slider). */
  datatype KeyEvent = KeyEvent(code: string, shiftKey: bool, targetIsInput: bool)

  datatype Shortcut = PlayPauseKey | NextKey | PreviousKey | RepeatKey

  /** The command a key press runs, if any, and whether its default action was prevented. */
  datatype KeyResult = KeyResult(shortcut: Option<Shortcut>, defaultPrevented: bool)

  /** Space plays or pauses, shift+right and shift+left move to the next and previous
      track, the R key cycles the repeat mode; nothing fires while an `<input>` has the event. */
  function HandleKey(k: KeyEvent): (r: KeyResult)
    ensures r.defaultPrevented <==> r.shortcut.Some?
    ensures r.shortcut == Some(PlayPauseKey) <==> !k.targetIsInput && k.code == "Space"
    ensures r.shortcut == Some(NextKey) <==> !k.targetIsInput && k.code == "ArrowRight" && k.shiftKey
    ensures r.shortcut == Some(PreviousKey) <==> !k.targetIsInput && k.code == "ArrowLeft" && k.shiftKey
    ensures r.shortcut == Some(RepeatKey) <==> !k.targetIsInput && k.code == "KeyR"
  {
    if k.targetIsInput then KeyResult(None, false)
    else if k.code == "Space" then KeyResult(Some(PlayPauseKey), true)
    else if k.code == "ArrowRight" then
      if k.shiftKey then KeyResult(Some(NextKey), true) else KeyResult(None, false)
    else if k.code == "ArrowLeft" then
      if k.shiftKey then KeyResult(Some(PreviousKey), true) else KeyResult(None, false)
    else if k.code == "KeyR" then KeyResult(Some(RepeatKey), true)
    else KeyResult(None, false)
  }

  /** Key presses aimed at an `<input>`, and keys the player does not bind, pass
      through untouched: no command runs and the browser default is kept. */
  lemma UnboundKeysPassThrough(k: KeyEvent)
    requires k.targetIsInput || k.code !in {"Space", "ArrowRight", "ArrowLeft", "KeyR"}
    ensures HandleKey(k) == KeyResult(None, false)
  {
  }

  /** Shift matters only for the arrow keys. */
  lemma ShiftOnlyMattersForArrows(k: KeyEvent)
    requires k.code != "ArrowRight" && k.code != "ArrowLeft"
    ensures HandleKey(k) == HandleKey(k.(shiftKey := !k.shiftKey))
  {
  }
}

=== FILE: player.dfy ===
/**
 The state of the audio player: the playlist entries, the player's React state record,
 the state updates a handler queues, and the abstract commands it sends to the
 `<audio>` element (the playback engine).

 A handler never mutates the state directly. Like a React event handler it queues
 updates (`setIsPlaying(...)`, `setCurrentTrackIndex(...)`, ...) whose values were
 computed from the state captured at render time; React applies the queue in order
 once the handler returns, so the last write to a field wins. `Commit` is that step.
 */
module Player {

  datatype Option<T> = None | Some(value: T)

  /** One playlist entry. `duration` is advisory display metadata in seconds. */
  datatype Track = Track(id: string, title: string, artist: string, src: string, duration: Option<real>)

  datatype RepeatMode = NoRepeat | RepeatAll | RepeatOne

  /** Volume in hundredths: the slider is a range input over [0, 1] with step 0.01. */
  type Volume = v: int | 0 <= v <= 100

  const FullVolume: Volume := 100

  /** The React state of the player, without the float-valued playback position and duration. */
  datatype State = State(
    index: int,
    playing: bool,
    volume: Volume,
    muted: bool,
    loading: bool,
    repeat: RepeatMode)

  /** The state right after mounting: first track, paused, full volume, not muted, no repeat. */
  const Initial := State(0, false, FullVolume, false, false, NoRepeat)

  /** The selected track is a valid position of a playlist of `n` tracks (so `n >= 1`). */
  predicate Valid(s: State, n: int) {
    0 <= s.index < n
  }

  /** A queued state update. All but `CycleRepeat` write a value; `CycleRepeat` is the
      functional updater of the repeat button, which reads the latest queued value. */
  datatype Update =
    | SetIndex(index: int)
    | SetPlaying(playing: bool)
    | SetVolume(volume: Volume)
    | SetMuted(muted: bool)
    | SetLoading(loading: bool)
    | CycleRepeat

  /** A command to the playback engine. `LoadAndPlayLater` is the deferred
      "load the new source, then play" sequence run after a short timer. */
  datatype Command =
    | Play
    | Pause
    | SetEngineVolume(level: Volume)
    | Rewind
    | LoadAndPlayLater

  /** What a handler does: the updates it queues and the engine commands it issues. */
  datatype Effect = Effect(updates: seq<Update>, commands: seq<Command>)

  const NoEffect := Effect([], [])

  /** The repeat button's cycle: none, all, one, and back to none. */
  function NextRepeatMode(m: RepeatMode): (r: RepeatMode)
    ensures r != m
  {
    match m
    case NoRepeat => RepeatAll
    case RepeatAll => RepeatOne
    case RepeatOne => NoRepeat
  }

  /** Every repeat mode comes back to itself after three presses and not earlier. */
  lemma RepeatCycleHasPeriodThree(m: RepeatMode)
    ensures NextRepeatMode(NextRepeatMode(NextRepeatMode(m))) == m
    ensures NextRepeatMode(NextRepeatMode(m)) != m
  {
  }

  /** One queued update: it writes its own field of the state and no other. */
  function ApplyUpdate(s: State, u: Update): (r: State)
    ensures !u.SetIndex? ==> r.index == s.index
    ensures !u.SetPlaying? ==> r.playing == s.playing
    ensures !u.SetVolume? ==> r.volume == s.volume
    ensures !u.SetMuted? ==> r.muted == s.muted
    ensures !u.SetLoading? ==> r.loading == s.loading
    ensures !u.CycleRepeat? ==> r.repeat == s.repeat
  {
    match u
    case SetIndex(i) => s.(index := i)
    case SetPlaying(b) => s.(playing := b)
    case SetVolume(v) => s.(volume := v)
    case SetMuted(b) => s.(muted := b)
    case SetLoading(b) => s.(loading := b)
    case CycleRepeat => s.(repeat := NextRepeatMode(s.repeat))
  }

  /** The state after React applies the queued updates in order: a field that no
      queued update writes keeps its value. */
  function Commit(s: State, us: seq<Update>): (r: State)
    ensures (forall i :: 0 <= i < |us| ==> !us[i].SetIndex?) ==> r.index == s.index
    ensures (forall i :: 0 <= i < |us| ==> !us[i].SetPlaying?) ==> r.playing == s.playing
    ensures (forall i :: 0 <= i < |us| ==> !us[i].SetVolume?) ==> r.volume == s.volume
    ensures (forall i :: 0 <= i < |us| ==> !us[i].SetMuted?) ==> r.muted == s.muted
    ensures (forall i :: 0 <= i < |us| ==> !us[i].SetLoading?) ==> r.loading == s.loading
    ensures (forall i :: 0 <= i < |us| ==> !us[i].CycleRepeat?) ==> r.repeat == s.repeat
    decreases |us|
  {
    if |us| == 0 then s else Commit(ApplyUpdate(s, us[0]), us[1..])
  }

  /** Committing a queue of two updates applies the first, then the second. */
  lemma CommitPair(s: State, a: Update, b: Update)
    ensures Commit(s, [a, b]) == ApplyUpdate(ApplyUpdate(s, a), b)
  {
    var s1 := ApplyUpdate(s, a);
    assert [a, b][0] == a && [a, b][1..] == [b];
    assert Commit(s, [a, b]) == Commit(s1, [b]);
    assert [b][0] == b && [b][1..] == [];
    assert Commit(s1, [b]) == Commit(ApplyUpdate(s1, b), []);
  }

  /** Committing two queues one after the other is committing their concatenation. */
  lemma {:induction false} CommitAppend(s: State, a: seq<Update>, b: seq<Update>)
    ensures Commit(s, a + b) == Commit(Commit(s, a), b)
    decreases |a|
  {
    if |a| == 0 {
      assert a + b == b;
    } else {
      assert (a + b)[0] == a[0];
      assert (a + b)[1..] == a[1..] + b;
      CommitAppend(ApplyUpdate(s, a[0]), a[1..], b);
    }
  }

  /** A value write to a field is overridden by any later write to the same field:
      a queue that ends with `SetPlaying(b)` leaves `playing == b`, whatever came before. */
  lemma LastPlayingWriteWins(s: State, us: seq<Update>, b: bool)
    ensures Commit(s, us + [SetPlaying(b)]).playing == b
  {
    CommitAppend(s, us, [SetPlaying(b)]);
  }

  /** The volume the engine plays at: zero while muted, the stored volume otherwise. */
  function EffectiveVolume(s: State): Volume {
    if s.muted then 0 else s.volume
  }

  /** The engine's volume after it executes `cmds`, starting at `v`: the last volume command wins. */
  function EngineVolumeAfter(v: Volume, cmds: seq<Command>): Volume
    decreases |cmds|
  {
    if |cmds| == 0 then v
    else EngineVolumeAfter(if cmds[0].SetEngineVolume? then cmds[0].level else v, cmds[1..])
  }

  /** The engine's volume agrees with the player's muted flag and stored volume. */
  predicate Synced(s: State, engineVolume: Volume) {
    engineVolume == EffectiveVolume(s)
  }

  /** A command log without volume commands leaves the engine volume alone. */
  lemma {:induction false} EngineVolumeUntouched(v: Volume, cmds: seq<Command>)
    requires forall i :: 0 <= i < |cmds| ==> !cmds[i].SetEngineVolume?
    ensures EngineVolumeAfter(v, cmds) == v
    decreases |cmds|
  {
    if |cmds| > 0 {
      EngineVolumeUntouched(v, cmds[1..]);
    }
  }

  /** Running two command logs one after the other is running their concatenation. */
  lemma {:induction false} EngineVolumeAppend(v: Volume, a: seq<Command>, b: seq<Command>)
    ensures EngineVolumeAfter(v, a + b) == EngineVolumeAfter(EngineVolumeAfter(v, a), b)
    decreases |a|
  {
    if |a| == 0 {
      assert a + b == b;
    } else {
      assert (a + b)[0] == a[0];
      assert (a + b)[1..] == a[1..] + b;
      EngineVolumeAppend(if a[0].SetEngineVolume? then a[0].level else v, a[1..], b);
    }
  }
}

=== FILE: time_format.dfy ===
/**
 The player's clock label: a playback position or duration in seconds rendered as
 minutes, a colon, and seconds padded to two digits, the way the player's JavaScript
 computes it (`Math.floor(t / 60)`, `Math.floor(t % 60)`, `toString`, `padStart(2, '0')`).
 */
module TimeFormat {

  /** A JavaScript number. Finite values are exact reals: float rounding is not modelled. */
  datatype Number = NaN | PositiveInfinity | NegativeInfinity | Finite(value: real)

  /** A result of `Math.floor`: NaN and the infinities pass through, finite values are integers. */
  datatype Whole = WholeNaN | WholeInfinity(negative: bool) | WholeInt(value: int)

  /** `x / d` for a positive finite divisor. */
  function Divide(x: Number, d: real): Number
    requires d > 0.0
  {
    match x
    case NaN => NaN
    case PositiveInfinity => PositiveInfinity
    case NegativeInfinity => NegativeInfinity
    case Finite(v) => Finite(v / d)
  }

  /** Rounding toward zero. */
  function Truncate(v: real): int {
    if v >= 0.0 then v.Floor else -((-v).Floor)
  }

  /** `x % 60`: JavaScript's remainder takes the sign of the dividend and is smaller
      than the divisor in magnitude; an infinite dividend gives NaN. */
  function Remainder60(x: Number): (r: Number)
    ensures x.Finite? <==> r.Finite?
    ensures x.Finite? && x.value >= 0.0 ==> 0.0 <= r.value < 60.0
    ensures x.Finite? && x.value < 0.0 ==> -60.0 < r.value <= 0.0
    ensures x.Finite? ==> ((x.value - r.value) / 60.0).Floor as real == (x.value - r.value) / 60.0
  {
    match x
    case Finite(v) => Finite(v - 60.0 * (Truncate(v / 60.0) as real))
    case _ => NaN
  }

  /** `Math.floor`: the greatest integer not above a finite value. */
  function MathFloor(x: Number): (r: Whole)
    ensures x.Finite? <==> r.WholeInt?
    ensures x.Finite? ==> r.value as real <= x.value < r.value as real + 1.0
    ensures x.NaN? <==> r.WholeNaN?
    ensures r.WholeInfinity? ==> (r.negative <==> x.NegativeInfinity?)
  {
    match x
    case NaN => WholeNaN
    case PositiveInfinity => WholeInfinity(false)
    case NegativeInfinity => WholeInfinity(true)
    case Finite(v) => WholeInt(v.Floor)
  }

  function DigitChar(d: int): char
    requires 0 <= d < 10
  {
    ('0' as int + d) as char
  }

  /** The decimal numeral of `n`, most significant digit first. */
  function NatToString(n: nat): string
    decreases n
  {
    if n < 10 then [DigitChar(n)] else NatToString(n / 10) + [DigitChar(n % 10)]
  }

  /** `Number.prototype.toString` on a whole number: an integer reads back from its
      decimal digits, after a minus sign exactly when it is negative. */
  function NumberToString(w: Whole): (r: string)
    ensures w.WholeInt? && w.value >= 0 ==>
      1 <= |r| && IsDigits(r) && DigitsValue(r) == w.value && (|r| > 1 ==> r[0] != '0')
    ensures w.WholeInt? && w.value < 0 ==>
      2 <= |r| && r[0] == '-' && IsDigits(r[1..]) && DigitsValue(r[1..]) == -w.value && (|r| > 2 ==> r[1] != '0')
    ensures w.WholeNaN? ==> r == "NaN"
  {
    match w
    case WholeNaN => "NaN"
    case WholeInfinity(negative) => if negative then "-Infinity" else "Infinity"
    case WholeInt(i) =>
      if i < 0 then
        NegativeNumeral(-i);
        "-" + NatToString(-i)
      else
        NatToStringRoundTrip(i);
        NatToString(i)
  }

  /** `padStart(2, '0')`: strings shorter than two characters get leading zeros. */
  function PadStart2(s: string): (r: string)
    ensures |r| == if |s| < 2 then 2 else |s|
    ensures r[|r| - |s|..] == s
    ensures forall i :: 0 <= i < |r| - |s| ==> r[i] == '0'
  {
    if |s| < 2 then seq(2 - |s|, _ => '0') + s else s
  }

  /** The clock label of a time in seconds; an unknown (NaN) time shows as "0:00". */
  function FormatTime(t: Number): (r: string)
    ensures t.NaN? ==> r == "0:00"
    ensures !t.NaN? ==> ':' in r
  {
    if t.NaN? then "0:00"
    else
      var minutes := MathFloor(Divide(t, 60.0));
      var seconds := MathFloor(Remainder60(t));
      NumberToString(minutes) + ":" + PadStart2(NumberToString(seconds))
  }

  // ---- Reading a label back ----

  predicate IsDigits(s: string) {
    forall i :: 0 <= i < |s| ==> '0' <= s[i] <= '9'
  }

  /** The value of a decimal numeral. */
  function DigitsValue(s: string): nat
    requires IsDigits(s)
    decreases |s|
  {
    if |s| == 0 then 0 else DigitsValue(s[..|s| - 1]) * 10 + (s[|s| - 1] as int - '0' as int)
  }

  /** The numeral of `n` is a canonical decimal numeral (no leading zero) whose value is `n`. */
  lemma {:induction false} NatToStringRoundTrip(n: nat)
    ensures var s := NatToString(n);
      && 1 <= |s| && IsDigits(s) && DigitsValue(s) == n
      && (n < 10 <==> |s| == 1)
      && (|s| > 1 ==> s[0] != '0')
    decreases n
  {
    var s := NatToString(n);
    if n >= 10 {
      var p := NatToString(n / 10);
      NatToStringRoundTrip(n / 10);
      assert s == p + [DigitChar(n % 10)];
      assert s[..|s| - 1] == p;
      assert s[0] == p[0];
    }
  }

  /** A minus sign followed by the numeral of `n`. */
  lemma NegativeNumeral(n: nat)
    ensures var r := "-" + NatToString(n);
      2 <= |r| && r[0] == '-' && IsDigits(r[1..]) && DigitsValue(r[1..]) == n && (|r| > 2 ==> r[1] != '0')
  {
    NatToStringRoundTrip(n);
    assert ("-" + NatToString(n))[1..] == NatToString(n);
  }

  /** For a non-negative time, minutes and seconds are the quotient and remainder of
      the whole number of seconds by sixty. */
  lemma SplitMinutes(x: real)
    requires x >= 0.0
    ensures MathFloor(Divide(Finite(x), 60.0)) == WholeInt(x.Floor / 60)
    ensures MathFloor(Remainder60(Finite(x))) == WholeInt(x.Floor % 60)
  {
    var k := x.Floor;
    var q := k / 60;
    assert k == 60 * q + k % 60;
    assert q as real <= x / 60.0 < q as real + 1.0;
    assert (x / 60.0).Floor == q;
    assert Truncate(x / 60.0) == q;
    var rem := x - 60.0 * (q as real);
    assert (k % 60) as real <= rem < (k % 60) as real + 1.0;
  }

  /** The seconds field of a label: exactly two digits whose value is `sec`. */
  lemma TwoDigitSeconds(sec: int)
    requires 0 <= sec < 60
    ensures var ss := PadStart2(NatToString(sec));
      |ss| == 2 && IsDigits(ss) && DigitsValue(ss) == sec
  {
    var ss := PadStart2(NatToString(sec));
    NatToStringRoundTrip(sec);
    if sec < 10 {
      assert ss == ['0'] + NatToString(sec);
      assert ss[..1] == ['0'];
    } else {
      assert ss == NatToString(sec);
    }
  }

  /** The label of a non-negative time, in terms of its whole number of seconds. */
  lemma NonNegativeLabel(x: real)
    requires x >= 0.0
    ensures FormatTime(Finite(x)) == NatToString(x.Floor / 60) + ":" + PadStart2(NatToString(x.Floor % 60))
  {
    SplitMinutes(x);
  }

  /** Cutting `m + ":" + ss` back into its two fields. */
  lemma SplitAtColon(m: string, ss: string)
    requires 1 <= |m| && |ss| == 2
    ensures var r := m + ":" + ss;
      && |r| == |m| + 3 && r[|r| - 3] == ':' && r[..|r| - 3] == m && r[|r| - 2..] == ss
      && r[0] == m[0]
  {
    var r := m + ":" + ss;
    assert r[..|r| - 3] == m;
    assert r[|r| - 2..] == ss;
  }

  /** The label built from `minutes` and `seconds < 60`: minutes, a colon and exactly two
      digits, each field reading back to its number; the minutes carry no leading zero. */
  lemma ClockLabel(minutes: nat, seconds: nat)
    requires seconds < 60
    ensures var r := NatToString(minutes) + ":" + PadStart2(NatToString(seconds));
      && |r| >= 4 && r[|r| - 3] == ':'
      && IsDigits(r[..|r| - 3]) && DigitsValue(r[..|r| - 3]) == minutes
      && IsDigits(r[|r| - 2..]) && DigitsValue(r[|r| - 2..]) == seconds
      && (|r| > 4 ==> r[0] != '0')
  {
    var m := NatToString(minutes);
    var ss := PadStart2(NatToString(seconds));
    NatToStringRoundTrip(minutes);
    TwoDigitSeconds(seconds);
    SplitAtColon(m, ss);
  }

  /** A label for a time `t >= 0` reads back as minutes, a colon and exactly two digits of
      seconds below sixty, with minutes * 60 + seconds the whole number of seconds in `t`;
      the minutes carry no leading zero. */
  lemma FormatTimeReadsBack(x: real)
    requires x >= 0.0
    ensures var r := FormatTime(Finite(x));
      && |r| >= 4 && r[|r| - 3] == ':'
      && IsDigits(r[..|r| - 3]) && IsDigits(r[|r| - 2..])
      && DigitsValue(r[|r| - 2..]) < 60
      && DigitsValue(r[..|r| - 3]) * 60 + DigitsValue(r[|r| - 2..]) == x.Floor
      && (|r| > 4 ==> r[0] != '0')
  {
    var k := x.Floor;
    NonNegativeLabel(x);
    ClockLabel(k / 60, k % 60);
  }

  /** The labels of unknown and infinite times, as JavaScript renders them. */
  lemma NonFiniteLabels()
    ensures FormatTime(NaN) == "0:00"
    ensures FormatTime(PositiveInfinity) == "Infinity:NaN"
    ensures FormatTime(NegativeInfinity) == "-Infinity:NaN"
  {
    InfiniteLabel(PositiveInfinity);
    InfiniteLabel(NegativeInfinity);
    InfinityNames();
  }

  /** An infinite time has infinite minutes and NaN seconds. */
  lemma InfiniteLabel(t: Number)
    requires t.PositiveInfinity? || t.NegativeInfinity?
    ensures FormatTime(t) == NumberToString(WholeInfinity(t.NegativeInfinity?)) + ":NaN"
  {
    assert MathFloor(Divide(t, 60.0)) == WholeInfinity(t.NegativeInfinity?);
    assert MathFloor(Remainder60(t)) == WholeNaN;
    assert PadStart2(NumberToString(WholeNaN)) == "NaN";
    assert ":" + "NaN" == ":NaN";
  }

  /** The infinite minutes fields, followed by the NaN seconds field. */
  lemma InfinityNames()
    ensures NumberToString(WholeInfinity(false)) + ":NaN" == "Infinity:NaN"
    ensures NumberToString(WholeInfinity(true)) + ":NaN" == "-Infinity:NaN"
  {
    assert NumberToString(WholeInfinity(false)) == "Infinity";
    assert NumberToString(WholeInfinity(true)) == "-Infinity";
  }

  /** A negative time gives negative minutes, so its label starts with a minus sign. */
  lemma NegativeTimeLabel(x: real)
    requires x < 0.0
    ensures FormatTime(Finite(x))[0] == '-'
  {
    var minutes := (x / 60.0).Floor;
    assert minutes < 0;
    assert NumberToString(WholeInt(minutes)) == "-" + NatToString(-minutes);
  }

  /** Minus five seconds renders as "-1:-5": JavaScript's remainder keeps the sign. */
  lemma MinusFiveSeconds()
    ensures FormatTime(Finite(-5.0)) == "-1:-5"
  {
    assert (-5.0 / 60.0).Floor == -1;
    assert Truncate(-5.0 / 60.0) == 0;
    assert (-5.0 - 60.0 * 0.0).Floor == -5;
    assert NatToString(5) == "5";
    assert NatToString(1) == "1";
  }
}

=== FILE: transport.dfy ===
/**
 The player's handlers: play/pause, next/previous, playlist selection, volume, mute,
 repeat, and the engine signals (load start, data loaded, ended, rejected play).

 Each handler is a function of the state captured when the player last rendered and
 returns the updates it queues and the commands it issues; its contract speaks of
 `Commit(s, r.updates)`, the state React holds once the handler has run. `attached`
 says whether the `<audio>` element is mounted (the source's `audioRef.current`).
 */
module Transport {
  import opened Player

  /** Play/pause: pauses a playing engine or starts a paused one, and flips `playing`. */
  function TogglePlayPause(s: State, attached: bool): (r: Effect)
    ensures var t := Commit(s, r.updates);
      attached ==> t.playing == !s.playing && t.(playing := s.playing) == s
    ensures attached ==> r.commands == [if s.playing then Pause else Play]
    ensures !attached ==> Commit(s, r.updates) == s && r.commands == []
  {
    if !attached then NoEffect
    else Effect([SetPlaying(!s.playing)], if s.playing then [Pause] else [Play])
  }

  /** Pressing play/pause twice restores the state; the engine is told to play and pause. */
  lemma TogglePlayPauseTwice(s: State)
    ensures var first := TogglePlayPause(s, true);
      var mid := Commit(s, first.updates);
      var second := TogglePlayPause(mid, true);
      Commit(mid, second.updates) == s && multiset(first.commands + second.commands) == multiset{Play, Pause}
  {
  }

  /** Moving the selection to `newIndex`. A playing player queues a redundant
      `playing := true` and schedules load-then-play of the new track; a paused
      one only moves the selection. Either way only the index changes. */
  function Advance(s: State, newIndex: int): (r: Effect)
    ensures Commit(s, r.updates) == s.(index := newIndex)
    ensures r.commands == (if s.playing then [LoadAndPlayLater] else [])
  {
    if s.playing then
      CommitPair(s, SetIndex(newIndex), SetPlaying(true));
      Effect([SetIndex(newIndex), SetPlaying(true)], [LoadAndPlayLater])
    else Effect([SetIndex(newIndex)], [])
  }

  /** The updates of `Advance` computed in `s` and committed onto any state `base`. */
  lemma AdvanceOnto(base: State, s: State, newIndex: int)
    ensures Commit(base, Advance(s, newIndex).updates)
      == base.(index := newIndex, playing := s.playing || base.playing)
  {
    if s.playing {
      CommitPair(base, SetIndex(newIndex), SetPlaying(true));
    }
  }

  /** Next track, wrapping from the last track to the first. */
  function NextTrack(s: State, n: int): (r: Effect)
    requires Valid(s, n)
    ensures var t := Commit(s, r.updates);
      && Valid(t, n)
      && t.index == (if s.index == n - 1 then 0 else s.index + 1)
      && t == s.(index := t.index)
    ensures r.commands == (if s.playing then [LoadAndPlayLater] else [])
  {
    if s.index == n - 1 then ModUnique(s.index + 1, 1, 0, n); Advance(s, (s.index + 1) % n)
    else ModUnique(s.index + 1, 0, s.index + 1, n); Advance(s, (s.index + 1) % n)
  }

  /** Previous track, wrapping from the first track to the last. The dividend
      `index - 1 + n` is never negative, so JavaScript's `%` and Dafny's agree. */
  function PreviousTrack(s: State, n: int): (r: Effect)
    requires Valid(s, n)
    ensures var t := Commit(s, r.updates);
      && Valid(t, n)
      && t.index == (if s.index == 0 then n - 1 else s.index - 1)
      && t == s.(index := t.index)
    ensures r.commands == (if s.playing then [LoadAndPlayLater] else [])
  {
    if s.index == 0 then ModUnique(s.index - 1 + n, 0, n - 1, n); Advance(s, (s.index - 1 + n) % n)
    else ModUnique(s.index - 1 + n, 1, s.index - 1, n); Advance(s, (s.index - 1 + n) % n)
  }

  /** Next then previous restores the whole state, for every playlist length including 1. */
  lemma NextThenPrevious(s: State, n: int)
    requires Valid(s, n)
    ensures var mid := Commit(s, NextTrack(s, n).updates);
      Commit(mid, PreviousTrack(mid, n).updates) == s
  {
  }

  /** Previous then next restores the whole state. */
  lemma PreviousThenNext(s: State, n: int)
    requires Valid(s, n)
    ensures var mid := Commit(s, PreviousTrack(s, n).updates);
      Commit(mid, NextTrack(mid, n).updates) == s
  {
  }

  /** The state after `k` presses of the next button. */
  function NextTimes(s: State, n: int, k: nat): (t: State)
    requires Valid(s, n)
    ensures Valid(t, n)
    decreases k
  {
    if k == 0 then s else NextTimes(Commit(s, NextTrack(s, n).updates), n, k - 1)
  }

  /** `k` presses of next move the selection `k` places forward around the playlist,
      and change nothing else; in particular `n` presses come back to the start. */
  lemma {:induction false} NextTimesRotates(s: State, n: int, k: nat)
    requires Valid(s, n)
    ensures NextTimes(s, n, k) == s.(index := (s.index + k) % n)
    decreases k
  {
    if k == 0 {
      ModUnique(s.index, 0, s.index, n);
    } else {
      var t := Commit(s, NextTrack(s, n).updates);
      NextTimesRotates(t, n, k - 1);
      if s.index == n - 1 {
        ModShift(k - 1, n);
        assert (s.index + k) % n == (k - 1 + n) % n;
      } else {
        assert t.index + (k - 1) == s.index + k;
      }
    }
  }

  lemma MulBounded(n: int, k: int)
    requires n > 0 && -n < n * k < n
    ensures k == 0
  {
  }

  /** The remainder is the unique `r` in `[0, n)` with `x == q * n + r`. */
  lemma ModUnique(x: int, q: int, r: int, n: int)
    requires n > 0 && 0 <= r < n && x == q * n + r
    ensures x % n == r
  {
    var q' := x / n;
    assert x == q' * n + x % n;
    assert n * (q' - q) == r - x % n;
    MulBounded(n, q' - q);
  }

  lemma ModShift(j: int, n: int)
    requires n > 0
    ensures (j + n) % n == j % n
  {
    ModUnique(j + n, j / n + 1, j % n, n);
  }

  /** The volume slider: stores the level, sets the engine to it, and mutes exactly at zero.
      Nothing happens before the `<audio>` element is mounted. */
  function VolumeChange(s: State, v: Volume, attached: bool): (r: Effect)
    ensures var t := Commit(s, r.updates);
      attached ==> t.volume == v && (t.muted <==> v == 0) && t.(volume := s.volume, muted := s.muted) == s
    ensures attached ==> r.commands == [SetEngineVolume(v)]
    ensures !attached ==> Commit(s, r.updates) == s && r.commands == []
  {
    if attached then
      CommitPair(s, SetVolume(v), SetMuted(v == 0));
      Effect([SetVolume(v), SetMuted(v == 0)], [SetEngineVolume(v)])
    else NoEffect
  }

  /** A playlist entry: select track `i` and play it after load. */
  function SelectAndPlay(s: State, i: int): (r: Effect)
    ensures var t := Commit(s, r.updates);
      t.index == i && t.playing && t.(index := s.index, playing := s.playing) == s
    ensures r.commands == [LoadAndPlayLater]
  {
    CommitPair(s, SetIndex(i), SetPlaying(true));
    Effect([SetIndex(i), SetPlaying(true)], [LoadAndPlayLater])
  }

  /** Mute/unmute: flips `muted` and never touches the stored volume; the engine is set
      to silence when muting and back to the stored volume when unmuting. */
  function ToggleMute(s: State, attached: bool): (r: Effect)
    ensures var t := Commit(s, r.updates);
      attached ==> t.muted == !s.muted && t.volume == s.volume && t.(muted := s.muted) == s
    ensures attached ==> r.commands == [SetEngineVolume(EffectiveVolume(Commit(s, r.updates)))]
    ensures !attached ==> Commit(s, r.updates) == s && r.commands == []
  {
    if !attached then NoEffect
    else if s.muted then Effect([SetMuted(false)], [SetEngineVolume(s.volume)])
    else Effect([SetMuted(true)], [SetEngineVolume(0)])
  }

  /** Pressing mute twice restores the state, and the engine ends at the volume it
      played at before: silent after muting, the stored volume after unmuting. */
  lemma ToggleMuteTwice(s: State)
    ensures var first := ToggleMute(s, true);
      var mid := Commit(s, first.updates);
      var second := ToggleMute(mid, true);
      && Commit(mid, second.updates) == s
      && first.commands == [SetEngineVolume(if s.muted then s.volume else 0)]
      && second.commands == [SetEngineVolume(EffectiveVolume(s))]
  {
  }

  /** Dragging the slider to zero mutes, and unmuting afterwards stays silent: the stored
      volume is then zero, so the engine is set back to zero. */
  lemma UnmuteAfterSliderAtZero(s: State)
    ensures var mid := Commit(s, VolumeChange(s, 0, true).updates);
      var unmute := ToggleMute(mid, true);
      && mid.muted
      && !Commit(mid, unmute.updates).muted
      && unmute.commands == [SetEngineVolume(0)]
  {
  }

  /** The repeat button: advances the repeat mode along its cycle and changes nothing else. */
  function ToggleRepeat(s: State): (r: Effect)
    ensures var t := Commit(s, r.updates);
      t.repeat == NextRepeatMode(s.repeat) && t.(repeat := s.repeat) == s
    ensures r.commands == []
  {
    Effect([CycleRepeat], [])
  }

  /** Three presses of the repeat button are the identity on the whole state. */
  lemma ToggleRepeatThrice(s: State)
    ensures var s1 := Commit(s, ToggleRepeat(s).updates);
      var s2 := Commit(s1, ToggleRepeat(s1).updates);
      Commit(s2, ToggleRepeat(s2).updates) == s
  {
    RepeatCycleHasPeriodThree(s.repeat);
  }

  /** The engine started loading a source. */
  function LoadStart(s: State): (r: Effect)
    ensures var t := Commit(s, r.updates); t.loading && t.(loading := s.loading) == s
    ensures r.commands == []
  {
    Effect([SetLoading(true)], [])
  }

  /** The engine has data for the current source. */
  function LoadedData(s: State): (r: Effect)
    ensures var t := Commit(s, r.updates); !t.loading && t.(loading := s.loading) == s
    ensures r.commands == []
  {
    Effect([SetLoading(false)], [])
  }

  /** A deferred play was refused by the engine: the player falls back to paused. */
  function PlayRejected(s: State): (r: Effect)
    ensures var t := Commit(s, r.updates); !t.playing && t.(playing := s.playing) == s
    ensures r.commands == []
  {
    Effect([SetPlaying(false)], [])
  }

  /** End of track. `playing := false` is queued first; then repeat-one rewinds and plays
      the same track again (if the element is mounted), and the other modes run the
      next-track handler (with the captured `playing`) unless the track is the last one,
      where repeat-all selects the first track without playing and no-repeat stops. */
  function Ended(s: State, n: int, attached: bool): (r: Effect)
    requires Valid(s, n)
    ensures var t := Commit(s, r.updates);
      && Valid(t, n)
      && t.(index := s.index, playing := s.playing) == s
    ensures var t := Commit(s, r.updates);
      s.repeat == RepeatOne ==>
        && t.index == s.index
        && (t.playing <==> attached)
        && r.commands == (if attached then [Rewind, Play] else [])
    ensures var t := Commit(s, r.updates);
      s.repeat != RepeatOne && s.index < n - 1 ==>
        && t.index == s.index + 1
        && t.playing == s.playing
        && r.commands == (if s.playing then [LoadAndPlayLater] else [])
    ensures var t := Commit(s, r.updates);
      s.repeat == RepeatAll && s.index == n - 1 ==> t.index == 0 && !t.playing && r.commands == []
    ensures var t := Commit(s, r.updates);
      s.repeat == NoRepeat && s.index == n - 1 ==> t.index == s.index && !t.playing && r.commands == []
  {
    var stop := [SetPlaying(false)];
    match s.repeat
    case RepeatOne =>
      if attached then
        CommitPair(s, SetPlaying(false), SetPlaying(true));
        Effect(stop + [SetPlaying(true)], [Rewind, Play])
      else Effect(stop, [])
    case RepeatAll =>
      if s.index < n - 1 then AfterStopThenNext(s, n)
      else
        CommitPair(s, SetPlaying(false), SetIndex(0));
        Effect(stop + [SetIndex(0)], [])
    case NoRepeat =>
      if s.index < n - 1 then AfterStopThenNext(s, n) else Effect(stop, [])
  }

  /** `e` run after the leading `playing := false` of the end-of-track handler: a later
      `playing := true` in `e` overrides it, otherwise playback stops. */
  function AfterStop(s: State, e: Effect): (r: Effect)
    ensures Commit(s, r.updates) == Commit(s.(playing := false), e.updates)
    ensures r.commands == e.commands
  {
    CommitAppend(s, [SetPlaying(false)], e.updates);
    Effect([SetPlaying(false)] + e.updates, e.commands)
  }

  /** The next-track handler, captured in `s`, run after the leading `playing := false`. */
  function AfterStopThenNext(s: State, n: int): (r: Effect)
    requires Valid(s, n) && s.index < n - 1
    ensures Commit(s, r.updates) == s.(index := s.index + 1)
    ensures r.commands == (if s.playing then [LoadAndPlayLater] else [])
  {
    ModUnique(s.index + 1, 0, s.index + 1, n);
    AdvanceOnto(s.(playing := false), s, s.index + 1);
    AfterStop(s, NextTrack(s, n))
  }

  /** Before the last track, the end of a track (outside repeat-one) leads to the same
      selection and commands as pressing next in the state captured before the event. */
  lemma EndedInteriorIsNext(s: State, n: int, attached: bool)
    requires Valid(s, n) && s.repeat != RepeatOne && s.index < n - 1
    ensures Commit(s, Ended(s, n, attached).updates) == Commit(s, NextTrack(s, n).updates)
    ensures Ended(s, n, attached).commands == NextTrack(s, n).commands
  {
  }

  /** Outside repeat-one, the end of the last track always stops playback. */
  lemma EndedLastStops(s: State, n: int, attached: bool)
    requires Valid(s, n) && s.repeat != RepeatOne && s.index == n - 1
    ensures !Commit(s, Ended(s, n, attached).updates).playing
    ensures Ended(s, n, attached).commands == []
  {
  }
}
